=== FILE: README.md ===
# M2G app: state logic of the Flet page

This project models, in Dafny, the state logic hidden inside the event handlers of
`M2G_Project/app.py`, a small Flet mobile application. The app shows a home screen of four
content cards, a profile screen, a notes panel and a reader panel. The reader plays an
anthem ("Inno") with a play/pause button and a stop button.

The model replaces widgets with one immutable state record, `App.AppState`. A `App.World`
wraps that record with:

- the client storage, a map from key to stored value;
- the log of calls made on the audio element (`Play`, `Pause`, `Seek(0)`);
- the URLs handed to the browser;
- whether the audio element could be created at start-up.

Every handler is a pure function from world to world.

Modules, leaves first:

- `Wrappers`: `Option`.
- `Text`: the string tests the app applies to stored values. These are Python's `sub in s` (`Contains`,
  proved equal to a reference definition), `startswith`, and `float` of a digit string.
- `Theme`: the `COLORS` table and `get_c`.
- `Settings`: the stored keys, Python truthiness, the cleaning of the profile-picture path,
  and `get_stored_data` with its all-defaults fallback. It also holds one lemma per written
  key, saying what a restart reads back after that write.
- `Catalog`: `BOOKS_DATA`, the reader column built for a title, the home cards and where
  each one leads.
- `Audio`: the `audio_playing` flag, the play button it drives, and the calls made by
  `toggle_audio`, `stop_audio` and the audio part of `close_reader`.
- `App`: the state, the handlers, and `Enabled`, which gives the controls that can
  receive a click. The page stacks the main column, the reader and the notes panel, so
  an open panel covers everything below it. `App` also holds two invariants and scenario
  lemmas. `ScreenInv` holds in every reachable world, whatever the storage holds.
  `StoreInv` holds in every world reached from readable storage.

Nothing here runs the application; all statements are proved by the Dafny verifier.

Main results:

- **Audio**:
  - The anthem plays only while its reader panel is on screen. This holds whatever the
    storage holds.
  - While that panel shows, the play button agrees with the flag: "PAUSA" while
    playing, "RIPRODUCI" or "RIPRENDI" otherwise.
  - When the audio element exists, every toggle makes exactly one backend call. Without
    it, no call is made.
  - When the audio element exists, stop always pauses and then rewinds.
  - Closing the reader pauses only if the anthem was playing and the audio element
    exists. It never rewinds.
- **Navigation bar**: exactly one nav button carries the accent colour, the one for the
  view that is shown.
- **Restart**: suppose the storage was readable when the page started. Then a restart
  at any point of the session shows the same name, font, theme and picture. It shows the
  same notes whenever the notes panel is closed. The exceptions are the falsy fallbacks
  and the cleaning of foreign picture paths.

## Model

| member | source | states |
|---|---|---|
| Text.Contains | M2G_Project/app.py:126 | `sub in s` holds exactly when `sub` starts at some position of `s` |
| Text.ParseDecimal | M2G_Project/app.py:132 | `float` of a stored string succeeds exactly for a non-empty string of digits, and its value is the digits read left to right in base ten |
| Text.HornerSnoc | M2G_Project/app.py:132 | appending a digit to a digit string multiplies its decimal value by ten and adds the digit |
| Text.ParseTwoDigits | M2G_Project/app.py:132 | the stored string "18" reads as the font size 18 |
| Theme.GetC | M2G_Project/app.py:92-103 | `get_c` finds a colour exactly for the ten keys of the table, in either mode; "primary" is the same accent in both |
| Theme.ColorOf | M2G_Project/app.py:147-148 | on the closed set of tokens the lookup is total and agrees with `get_c` |
| Theme.TokensCoverKeys | M2G_Project/app.py:92-103 | a key is in the table exactly when it is the key of a token, and no two tokens share a key |
| Theme.KeyInjective | M2G_Project/app.py:92-103 | distinct colour tokens name distinct keys of the table |
| Theme.PalettesAgreeOnKeys | M2G_Project/app.py:92-103 | the light and the dark palette define the same ten keys |
| Theme.PrimaryIgnoresMode | M2G_Project/app.py:94-99 | the accent colour does not depend on the theme |
| Theme.NavSurfaceIsNotPrimary | M2G_Project/app.py:94-100 | in both modes the nav-bar colour differs from the accent, so highlighting is visible |
| Settings.Sanitize | M2G_Project/app.py:125-127 | a cleaned path never looks foreign; it is kept exactly when it contains no "C:", no backslash and does not start with "/", otherwise it becomes "user.svg" |
| Settings.Load | M2G_Project/app.py:122-137 | reading settings never yields an empty name or a foreign or empty picture, and yields exactly the defaults when reading raises |
| Settings.LoadFailsExactly | M2G_Project/app.py:122-137 | reading raises exactly when the picture is a truthy non-string or the font size is a truthy non-numeric string |
| Settings.PicCases | M2G_Project/app.py:124-127 | absent or empty picture gives "user.svg"; a stored path is kept exactly when it is not foreign; a foreign path gives "user.svg" |
| Settings.FalsyFallbacks | M2G_Project/app.py:129-135 | an absent or falsy name, notes, font size or theme reads back as "Utente", "", 16 or light |
| Settings.EmptyStoreLoadsDefaults | M2G_Project/app.py:136-137 | a fresh installation reads exactly the documented defaults |
| Settings.WriteKeepsLoadable | M2G_Project/app.py:122-137 | writing a value of the kind the app writes under a key never makes reading raise |
| Settings.StoreName | M2G_Project/app.py:430-433 | after storing a name, a restart reads that name (or "Utente" if empty) and everything else as before |
| Settings.StoreNotes | M2G_Project/app.py:419-427 | after storing the notes, a restart reads exactly those notes and everything else as before |
| Settings.StoreFont | M2G_Project/app.py:435-442 | after storing a font size, a restart reads it (16 if zero) and everything else as before |
| Settings.StoreDark | M2G_Project/app.py:444-447 | after storing the theme flag, a restart reads it and everything else as before |
| Settings.StorePic | M2G_Project/app.py:151-160 | after storing a picked path, a restart reads it cleaned (the default avatar if empty or foreign) and everything else as before |
| Catalog.PageBlocks | M2G_Project/app.py:396 | a book's column has two entries per page and holds only page images and 10-pixel spacers |
| Catalog.PageBlocksLayout | M2G_Project/app.py:396 | page `i` sits at position `2i`, followed by its spacer |
| Catalog.PageBlocksPairs | M2G_Project/app.py:396 | in a book's column every page `i` sits at position `2i` and a 10-pixel spacer at `2i+1` |
| Catalog.PageBlocksShowPages | M2G_Project/app.py:396 | the images of a book's column are exactly its pages, in order |
| Catalog.ReaderBlocks | M2G_Project/app.py:357-396 | "Inno" gets the audio controls and the lyrics at the current size; a book with no pages gets only the placeholder; a book with pages gets exactly one image per page, in order, each followed by a 10-pixel spacer, and no audio controls; any other title is the KeyError |
| Catalog.CardAction | M2G_Project/app.py:329 | a card launches the photo URL exactly when it is "Foto ricordo"; every other card opens the reader on its own title |
| Catalog.OnlyPhotoCardLaunches | M2G_Project/app.py:327-329 | of the four cards only the fourth, "Foto ricordo", leaves the app |
| Catalog.ReaderCardsHaveContent | M2G_Project/app.py:327-396 | every card that opens the reader names "Inno" or a book with pages, so the "Nessuna pagina qui." placeholder is never reached from the home screen |
| Audio.FreshButton | M2G_Project/app.py:360-362 | a newly built play button shows the play icon and "RIPRODUCI" |
| Audio.Toggle | M2G_Project/app.py:365-378 | toggling flips the flag and leaves the button agreeing with it; from playing it makes one pause and shows "RIPRENDI", otherwise one play and "PAUSA"; it never rewinds |
| Audio.Stop | M2G_Project/app.py:380-388 | stopping always ends silent with "RIPRODUCI", after a pause and a rewind to 0 |
| Audio.Silence | M2G_Project/app.py:401-404 | closing the reader ends silent, pauses only if playing, never plays or rewinds, and leaves the button as it was |
| Audio.ToggleTwice | M2G_Project/app.py:365-378 | two toggles restore the flag after one pause and one play; from silence the button then reads "RIPRENDI" |
| Audio.StopIdempotent | M2G_Project/app.py:380-388 | stopping twice leaves the player as stopping once, repeating the pause and rewind |
| Audio.SilenceLeavesButton | M2G_Project/app.py:401-407 | closing over a playing anthem leaves the hidden button reading "PAUSA" with the flag off; a new button agrees again |
| App.Repaint | M2G_Project/app.py:269-343 | repainting gives the accent background to exactly the nav button of the shown view, puts the current picture on the profile button, and changes nothing but the painted colours |
| App.Enabled | M2G_Project/app.py:449-469 | a control receives clicks only on the topmost layer of the stack; the nav buttons and the home cards work exactly when no panel is open, the reader's close button exactly when the reader is on top, the audio buttons exactly when the reader shows the anthem, and the notes controls exactly when the notes panel is open |
| App.Highlight | M2G_Project/app.py:315-323 | the home button has the accent background and white text exactly when home is shown, the profile button exactly when the profile is shown; the other button keeps the theme's text colour |
| App.Initial | M2G_Project/app.py:139-145 | the page starts on the home view with no panel open, silent, over the given storage and audio element, showing exactly the name, notes, font, theme and picture that reading the settings gives, hence all the defaults when reading raises |
| App.Navigate | M2G_Project/app.py:345-348 | index 0 shows home and any other index the profile; exactly the button of that view is highlighted; nothing else changes |
| App.OpenReader | M2G_Project/app.py:350-399 | opening sets the title, shows the column for it and opens the panel for "Inno" and the books; a book's column is the page/spacer column of the catalogue; the anthem gets a fresh "RIPRODUCI" button; the flag is never touched, no call is made and the audio element is kept; an unknown title clears the column and leaves the panel as it was |
| App.ClickCard | M2G_Project/app.py:327-329 | the photo card only appends its URL to the launched list; each other card is exactly opening the reader on its title, so it makes no audio call and stores nothing |
| App.ToggleAudio | M2G_Project/app.py:365-378 | the flag flips, the button agrees, and exactly the matching pause or play call is logged |
| App.StopAudio | M2G_Project/app.py:380-388 | the anthem ends silent with "RIPRODUCI" after a logged pause and rewind |
| App.CloseReader | M2G_Project/app.py:401-407 | the panel is hidden and silent; a pause is logged only if the anthem played; no rewind is logged; the view, settings, storage, button and launched URLs stay as they were |
| App.OpenNotes | M2G_Project/app.py:409-417 | the notes panel is shown and nothing else changes |
| App.EditNotes | M2G_Project/app.py:209-212 | typing in the notes field changes only the shown text; nothing is stored, called or launched, and the audio element is kept |
| App.CloseNotes | M2G_Project/app.py:419-423 | the notes panel is hidden and nothing else on the page changes; the text is written to storage whatever it held; no audio call or URL launch is made; over readable storage a restart reads the current text |
| App.SaveNotes | M2G_Project/app.py:425-428 | the page is unchanged; the text is written to storage whatever it held; over readable storage a restart reads the current text |
| App.ChangeName | M2G_Project/app.py:430-433 | the name is shown as typed, with no length check, and written to storage whatever it held; over readable storage a restart greets with it (or "Utente" if empty) |
| App.ChangeFont | M2G_Project/app.py:435-442 | the size is used as given, with no clamping, and written to storage whatever it held; over readable storage a restart reads it (16 if zero) |
| App.ChangeTheme | M2G_Project/app.py:444-447 | the palette switches, the bar is repainted to match the view with the current picture, everything else on the page stays, no call or launch is made, the flag is written to storage whatever it held, and over readable storage a restart reads it |
| App.PickFile | M2G_Project/app.py:151-160 | the first picked path is shown unclean and written to storage whatever it held; over readable storage a restart reads it cleaned; no pick changes nothing |
| App.InitialInv | M2G_Project/app.py:139-145 | the first page satisfies the screen invariant over any storage, and the storage invariant when the storage is readable |
| App.StepKeepsInv | M2G_Project/app.py:449-458 | every handler reachable from the topmost layer keeps the screen invariant, and keeps the storage invariant when it held |
| App.RunKeepsInv | M2G_Project/app.py:449-458 | any sequence of reachable events keeps the screen invariant, and keeps the storage invariant when it held |
| App.SessionGuarantees | M2G_Project/app.py:365-407 | in every session over any storage the anthem plays only under its visible reader, the play button agrees with the flag, and exactly the shown view is highlighted; if the storage was readable at start-up, a restart reproduces the shown settings |
| App.FreshInstall | M2G_Project/app.py:139-145 | a fresh install opens on home, light, font 16, greeting "Utente", default avatar, with home highlighted |
| App.NameSurvivesRestart | M2G_Project/app.py:430-433 | a non-empty name typed in one session is the name after a restart |
| App.ForeignPictureLastsOneSession | M2G_Project/app.py:151-160 | a picked foreign path is shown for the session but a restart shows the default avatar |
| App.PickedPictureNotInBarUntilRepaint | M2G_Project/app.py:151-160 | a new picture does not reach the nav-bar button until the next navigation repaints it |
| App.CorruptPictureHidesWrites | M2G_Project/app.py:122-137 | with any truthy non-string picture in storage, the read after a name write still gives the defaults, so the stored name stays hidden until a picture is picked |
| App.PickRepairsCorruptPicture | M2G_Project/app.py:151-160 | over such storage with a readable font, reading raises before and after a name write, and picking a picture makes it readable again, giving back the stored name and the cleaned picture |
| App.SectionChangeKeepsAudio | M2G_Project/app.py:350-399 | opening any title other than "Inno" over a playing anthem does not stop it or log any call, and removes its controls |
| App.CloseReaderIdempotent | M2G_Project/app.py:401-407 | closing the reader a second time changes nothing |
| App.AnthemRoundTrip | M2G_Project/app.py:365-388 | play, pause, resume, stop walks the flag through on, off, on, off, ends on "RIPRODUCI", and logs play, pause, play, pause, rewind |

### Behaviour the code does not have

`app.py` lacks the following checks and resets, and the model follows it:

- No code rejects opening a panel while another is open. `App.Enabled` expresses only
  that an open panel covers the controls beneath it.
- Opening another section does not reset the audio (`App.SectionChangeKeepsAudio`).
  Only the covering reader keeps this from being observable.
- The name is not checked against a length limit, and the font size is not clamped.
  The 14-character limit and the 12–30 range belong to the widgets (lines 177 and 182).
- `stop_audio` makes a pause and a rewind call even when the anthem is already
  stopped.
- A toggle after a pause is an ordinary `play` call; no separate "resume" call exists.
- Closing the reader pauses without rewinding.
- An unknown title in `open_reader` raises `KeyError`. It does not fail with a
  dedicated error.

## Left out

- Widget construction, layout, shadows, animation, and the positional `controls[...]`
  recolouring are left out. Panel visibility is a boolean, not an offset and an opacity.
- Colours other than the nav-bar highlight and the play button are left out. This
  covers the header, cards, notes paper and ruled lines, which are pure lookups with no
  state behind them. It also covers the green "saved" icon. `save_notes` turns it green
  (line 427) and it stays green until the next `update_interface_colors` resets it
  (line 302). That state is only a colour; no handler reads it.
- The tint of the default avatar (lines 173-174, 282-283, 319-323) is left out, for
  the same reason.
- The welcome text and the "Grandezza Testo" label are left out. Each repeats the
  stored name or size.
- The concrete `ft.Audio` element is left out. Only whether it exists matters, and the
  calls it would receive are logged.
- The concrete `client_storage` is left out. It is a key/value map, and writes
  overwrite.
- Exceptions other than the all-defaults fallback of `get_stored_data` and the
  `KeyError` of an unknown title are left out. These include failures inside storage or
  audio calls, which the source swallows or leaves to Flet.
- `page.launch_url` is left out; the URL is recorded in `launched`.
- The file-picker dialog is left out; only its result is an event.
- The lyrics text is left out as opaque; only the size it is drawn at is kept.
- Font sizes are integers, not floats.
- Where a later `play` call starts playback is left out. That is up to the audio
  element, so the model records only which calls are made.
- Settings.Load: a truthy non-string value stored under `user_name` or `user_notes`
  would be passed through unchanged by the source, because Python does not check the
  type. The model reads such a value as absent, which gives the default. The app
  itself only ever writes strings there.
- Text.ParseDecimal: `float` of a stored string is modelled for plain decimal digits
  only. Signs, decimal points, exponents and surrounding blanks count as a failed
  conversion. The app itself only writes numbers under `font_size`.

=== FILE: app.dfy ===
/** The application state behind the Flet page: which view is shown, which
    panel is open, the theme, font and profile fields, the anthem player, and
    the navigation-bar colours last painted. A `World` adds what the handlers
    touch outside the page: the client storage, the calls made on the audio
    element and the URLs handed to the browser. Every event handler is a pure
    function from world to world. */
module App {
  import opened Wrappers
  import Theme
  import opened Settings
  import opened Catalog
  import opened Audio

  datatype View = Home | UserPage

  /** The two navigation buttons as `update_interface_colors` paints them. */
  datatype NavBar = NavBar(
    homeBackground: string, userBackground: string,
    homeForeground: string, userForeground: string)

  /** What was painted by the last `update_interface_colors`: the button
      colours and the avatar drawn in the profile button. */
  datatype Painted = Painted(nav: NavBar, avatar: string)

  datatype AppState = AppState(
    view: View,
    isDark: bool,
    fontSize: int,
    name: string,
    notes: string,
    pic: string,
    notesOpen: bool,
    readerOpen: bool,
    readerTitle: string,
    blocks: seq<Block>,
    player: Player,
    painted: Painted)

  datatype World = World(
    app: AppState,
    store: Store,
    calls: seq<AudioCall>,
    launched: seq<string>,
    audioPresent: bool)

  /** The nav-bar colours for a view: the button of the shown view gets the
      accent background and white text, the other the bar's own colours. */
  function Highlight(view: View, isDark: bool): (nb: NavBar)
    ensures nb.homeBackground == Theme.PrimaryColor <==> view == Home
    ensures nb.userBackground == Theme.PrimaryColor <==> view == UserPage
    ensures nb.homeForeground == "white" <==> view == Home
    ensures view == Home ==> nb.userForeground == Theme.ColorOf(isDark, Theme.Foreground)
    ensures view == UserPage ==>
      nb.homeForeground == Theme.ColorOf(isDark, Theme.Foreground) && nb.userForeground == "white"
  {
    Theme.PrimaryIgnoresMode(isDark);
    Theme.NavSurfaceIsNotPrimary(isDark);
    var primary := Theme.ColorOf(isDark, Theme.Primary);
    var bar := Theme.ColorOf(isDark, Theme.NavSurface);
    var fg := Theme.ColorOf(isDark, Theme.Foreground);
    var home := view == Home;
    NavBar(
      if home then primary else bar, if home then bar else primary,
      if home then "white" else fg, if home then fg else "white")
  }

  /** `update_interface_colors`, restricted to what the model keeps. */
  function Repaint(app: AppState): (r: AppState)
    ensures r.painted.nav.homeBackground == Theme.PrimaryColor <==> app.view == Home
    ensures r.painted.nav.userBackground == Theme.PrimaryColor <==> app.view == UserPage
    ensures r.painted.avatar == app.pic
    ensures r.(painted := app.painted) == app
  {
    app.(painted := Painted(Highlight(app.view, app.isDark), app.pic))
  }

  /** Whether the reader currently shows the play and stop buttons. */
  predicate ShowsAudio(app: AppState) {
    AudioControls in app.blocks
  }

  /** The picture a restart would show for the picture `p` held in the page. */
  function CleanPic(p: string): string {
    Sanitize(if p == "" then DefaultAvatar else p)
  }

  /** The page as `main` builds it from the stored settings. */
  function Initial(store: Store, audioPresent: bool): (w: World)
    ensures w.app.view == Home && !w.app.notesOpen && !w.app.readerOpen
    ensures !w.app.player.playing && w.calls == [] && w.launched == []
    ensures w.app.name != "" && !Settings.LooksForeign(w.app.pic)
    ensures !Loadable(store) ==> w.app.name == DefaultName && !w.app.isDark
    ensures w.store == store && w.audioPresent == audioPresent
    ensures Profile(w.app.name, w.app.notes, w.app.fontSize, w.app.isDark, w.app.pic) == Load(store)
  {
    var p := Load(store);
    var app := AppState(
      Home, p.dark, p.font, p.name, p.notes, p.pic, false, false, "Titolo", [],
      Player(false, FreshButton(p.dark)), Painted(Highlight(Home, p.dark), p.pic));
    World(app, store, [], [], audioPresent)
  }

  // ---------------------------------------------------------------------
  // Event handlers

  /** `navigate(index)`: index 0 shows the home cards, any other index the
      profile; the bar is repainted. */
  function Navigate(w: World, index: int): (r: World)
    ensures r.app.view == Home <==> index == 0
    ensures r.app.painted.nav.homeBackground == Theme.PrimaryColor <==> index == 0
    ensures r.app.painted.nav.userBackground == Theme.PrimaryColor <==> index != 0
    ensures r.app.(view := w.app.view, painted := w.app.painted) == w.app
    ensures r.store == w.store && r.calls == w.calls && r.launched == w.launched && r.audioPresent == w.audioPresent
  {
    w.(app := Repaint(w.app.(view := if index == 0 then Home else UserPage)))
  }

  /** `open_reader(title)`. An unknown title raises `KeyError` after the
      title is set and the column cleared; the panel then stays as it was.
      The anthem flag is left alone whatever is opened. */
  function OpenReader(w: World, title: string): (r: World)
    ensures r.store == w.store && r.calls == w.calls && r.launched == w.launched && r.audioPresent == w.audioPresent
    ensures r.app.player.playing == w.app.player.playing
    ensures r.app.readerTitle == title
    ensures r.app.readerOpen <==> w.app.readerOpen || title == AnthemTitle || title in BooksData
    ensures title == AnthemTitle ==>
      ShowsAudio(r.app) && r.app.player.button.text == PlayLabel && Lyrics(w.app.fontSize) in r.app.blocks
    ensures title != AnthemTitle && title in BooksData ==>
      !ShowsAudio(r.app) && PagesShown(r.app.blocks) == BooksData[title]
    ensures title != AnthemTitle && title !in BooksData ==> r.app.blocks == []
    ensures title != AnthemTitle && title in BooksData ==>
      r.app.blocks == ReaderBlocks(title, w.app.fontSize).value
    ensures r.app.(readerOpen := w.app.readerOpen, readerTitle := w.app.readerTitle,
                   blocks := w.app.blocks, player := w.app.player) == w.app
  {
    var app := w.app.(readerTitle := title);
    match ReaderBlocks(title, w.app.fontSize)
    case None => w.(app := app.(blocks := []))
    case Some(blocks) =>
      var player := if title == AnthemTitle then app.player.(button := FreshButton(app.isDark)) else app.player;
      w.(app := app.(blocks := blocks, player := player, readerOpen := true))
  }

  /** A click on the `i`-th home card: the photo card hands its URL to the
      browser, the others open the reader. */
  function ClickCard(w: World, i: int): (r: World)
    ensures 0 <= i < |Cards| && Cards[i].title == PhotoTitle ==>
      r == w.(launched := w.launched + [PhotoUrl])
    ensures 0 <= i < |Cards| && Cards[i].title != PhotoTitle ==>
      r.launched == w.launched && r.audioPresent == w.audioPresent && r.app.readerOpen && r.app.readerTitle == Cards[i].title
    ensures 0 <= i < |Cards| && Cards[i].title != PhotoTitle ==> r == OpenReader(w, Cards[i].title)
    ensures !(0 <= i < |Cards|) ==> r == w
  {
    if !(0 <= i < |Cards|) then w
    else match CardAction(Cards[i].title)
      case LaunchUrl(url) => w.(launched := w.launched + [url])
      case OpenReader(title) => OpenReader(w, title)
  }

  /** Applies a player step: the new player, its calls appended to the log. */
  function WithAudio(w: World, s: AudioStep): World {
    w.(app := w.app.(player := s.player), calls := w.calls + s.calls)
  }

  /** `toggle_audio`. */
  function ToggleAudio(w: World): (r: World)
    ensures r.app.player.playing == !w.app.player.playing
    ensures Consistent(r.app.player)
    ensures r.calls == w.calls + IfPresent(w.audioPresent, if w.app.player.playing then [Pause] else [Play])
    ensures r.app.(player := w.app.player) == w.app && r.store == w.store && r.launched == w.launched && r.audioPresent == w.audioPresent
  {
    WithAudio(w, Toggle(w.app.player, w.audioPresent, w.app.isDark))
  }

  /** `stop_audio`. */
  function StopAudio(w: World): (r: World)
    ensures !r.app.player.playing && r.app.player.button.text == PlayLabel
    ensures r.calls == w.calls + IfPresent(w.audioPresent, [Pause, Seek(0)])
    ensures r.app.(player := w.app.player) == w.app && r.store == w.store && r.launched == w.launched && r.audioPresent == w.audioPresent
  {
    WithAudio(w, Stop(w.app.player, w.audioPresent, w.app.isDark))
  }

  /** `close_reader`: silence the anthem if it plays, hide the panel. */
  function CloseReader(w: World): (r: World)
    ensures !r.app.player.playing && !r.app.readerOpen
    ensures r.calls == w.calls + (if w.app.player.playing then IfPresent(w.audioPresent, [Pause]) else [])
    ensures Seek(0) !in r.calls[|w.calls|..]
    ensures r.app.(player := w.app.player, readerOpen := w.app.readerOpen) == w.app
    ensures r.app.player.button == w.app.player.button
    ensures r.store == w.store && r.launched == w.launched && r.audioPresent == w.audioPresent
  {
    var s := Silence(w.app.player, w.audioPresent);
    var r := WithAudio(w, s).(app := WithAudio(w, s).app.(readerOpen := false));
    assert r.calls[|w.calls|..] == s.calls;
    r
  }

  /** `open_notes`: show the notes panel. */
  function OpenNotes(w: World): (r: World)
    ensures r.app.notesOpen && r.app.(notesOpen := w.app.notesOpen) == w.app
    ensures r.store == w.store && r.calls == w.calls && r.launched == w.launched && r.audioPresent == w.audioPresent
  {
    w.(app := w.app.(notesOpen := true))
  }

  /** Typing in the notes field; no handler runs and nothing is stored. */
  function EditNotes(w: World, text: string): (r: World)
    ensures r.app == w.app.(notes := text)
    ensures r.store == w.store && r.calls == w.calls && r.launched == w.launched && r.audioPresent == w.audioPresent
  {
    w.(app := w.app.(notes := text))
  }

  /** `close_notes`: hide the panel and store the text. */
  function CloseNotes(w: World): (r: World)
    ensures r.app == w.app.(notesOpen := false)
    ensures r.store == w.store[NotesKey := Str(w.app.notes)]
    ensures r.calls == w.calls && r.launched == w.launched && r.audioPresent == w.audioPresent
    ensures Loadable(w.store) ==> Loadable(r.store) && Load(r.store) == Load(w.store).(notes := w.app.notes)
  {
    StoreNotes(w.store, w.app.notes);
    w.(app := w.app.(notesOpen := false), store := w.store[NotesKey := Str(w.app.notes)])
  }

  /** `save_notes`: store the text, leaving the panel open. */
  function SaveNotes(w: World): (r: World)
    ensures r.store == w.store[NotesKey := Str(w.app.notes)]
    ensures r.app == w.app && r.calls == w.calls && r.launched == w.launched && r.audioPresent == w.audioPresent
    ensures Loadable(w.store) ==> Loadable(r.store) && Load(r.store) == Load(w.store).(notes := w.app.notes)
  {
    StoreNotes(w.store, w.app.notes);
    w.(store := w.store[NotesKey := Str(w.app.notes)])
  }

  /** `on_name_change`: the new name is shown and stored as typed. */
  function ChangeName(w: World, name: string): (r: World)
    ensures r.store == w.store[NameKey := Str(name)]
    ensures r.app == w.app.(name := name) && r.calls == w.calls && r.launched == w.launched && r.audioPresent == w.audioPresent
    ensures Loadable(w.store) ==>
      Loadable(r.store) && Load(r.store) == Load(w.store).(name := if name == "" then DefaultName else name)
  {
    StoreName(w.store, name);
    w.(app := w.app.(name := name), store := w.store[NameKey := Str(name)])
  }

  /** `on_font_change`: the new size is used and stored as given. */
  function ChangeFont(w: World, size: int): (r: World)
    ensures r.store == w.store[FontKey := Num(size)]
    ensures r.app == w.app.(fontSize := size) && r.calls == w.calls && r.launched == w.launched && r.audioPresent == w.audioPresent
    ensures Loadable(w.store) ==>
      Loadable(r.store) && Load(r.store) == Load(w.store).(font := if size == 0 then DefaultFont else size)
  {
    StoreFont(w.store, size);
    w.(app := w.app.(fontSize := size), store := w.store[FontKey := Num(size)])
  }

  /** `on_theme_change`: switch the palette, store it, repaint. */
  function ChangeTheme(w: World, dark: bool): (r: World)
    ensures r.store == w.store[DarkKey := Flag(dark)]
    ensures r.app.isDark == dark
    ensures r.app.painted.nav == Highlight(r.app.view, dark)
    ensures r.app.(isDark := w.app.isDark, painted := w.app.painted) == w.app
    ensures r.app.painted.avatar == w.app.pic
    ensures r.calls == w.calls && r.launched == w.launched && r.audioPresent == w.audioPresent
    ensures Loadable(w.store) ==> Loadable(r.store) && Load(r.store) == Load(w.store).(dark := dark)
  {
    StoreDark(w.store, dark);
    w.(app := Repaint(w.app.(isDark := dark)), store := w.store[DarkKey := Flag(dark)])
  }

  /** `on_file_picked`: the first picked path is shown and stored as is; the
      cleaning happens only when the settings are next read, and the bar is
      not repainted. */
  function PickFile(w: World, paths: seq<string>): (r: World)
    ensures paths == [] ==> r == w
    ensures paths != [] ==> r.app == w.app.(pic := paths[0])
    ensures paths != [] ==> r.store == w.store[PicKey := Str(paths[0])]
    ensures r.calls == w.calls && r.launched == w.launched && r.audioPresent == w.audioPresent
    ensures paths != [] && Loadable(w.store) ==>
      Loadable(r.store) && Load(r.store) == Load(w.store).(pic := CleanPic(paths[0]))
  {
    if paths == [] then w
    else
      StorePic(w.store, paths[0]);
      w.(app := w.app.(pic := paths[0]), store := w.store[PicKey := Str(paths[0])])
  }

  // ---------------------------------------------------------------------
  // Events and the layers that receive them

  datatype Event =
    | NavigateTo(index: int)
    | CardClicked(index: int)
    | TogglePlay
    | StopPlay
    | CloseReaderPanel
    | OpenNotesPanel
    | TypeNotes(text: string)
    | CloseNotesPanel
    | SaveNotesText
    | SetName(name: string)
    | SetFont(size: int)
    | SetTheme(dark: bool)
    | PickedFiles(paths: seq<string>)

  function Step(w: World, e: Event): World {
    match e
    case NavigateTo(i) => Navigate(w, i)
    case CardClicked(i) => ClickCard(w, i)
    case TogglePlay => ToggleAudio(w)
    case StopPlay => StopAudio(w)
    case CloseReaderPanel => CloseReader(w)
    case OpenNotesPanel => OpenNotes(w)
    case TypeNotes(t) => EditNotes(w, t)
    case CloseNotesPanel => CloseNotes(w)
    case SaveNotesText => SaveNotes(w)
    case SetName(n) => ChangeName(w, n)
    case SetFont(f) => ChangeFont(w, f)
    case SetTheme(d) => ChangeTheme(w, d)
    case PickedFiles(ps) => PickFile(w, ps)
  }

  /** The three layers of the page's stack, bottom to top. */
  datatype Layer = MainLayer | ReaderLayer | NotesLayer

  /** The topmost visible layer, which receives every click. */
  function TopLayer(app: AppState): Layer {
    if app.notesOpen then NotesLayer else if app.readerOpen then ReaderLayer else MainLayer
  }

  /** The layer holding the control that raises `e`. */
  function LayerOf(e: Event): Layer {
    match e
    case TypeNotes(_) => NotesLayer
    case CloseNotesPanel => NotesLayer
    case SaveNotesText => NotesLayer
    case CloseReaderPanel => ReaderLayer
    case TogglePlay => ReaderLayer
    case StopPlay => ReaderLayer
    case _ => MainLayer
  }

  /** Which controls can be clicked. The page stacks the main column, then the
      reader, then the notes panel; an open panel covers everything below it,
      so only the topmost visible layer receives events. */
  predicate Enabled(app: AppState, e: Event)
    ensures Enabled(app, e) ==> LayerOf(e) == TopLayer(app)
    ensures e.NavigateTo? ==> (Enabled(app, e) <==> TopLayer(app) == MainLayer)
    ensures e.CloseReaderPanel? ==> (Enabled(app, e) <==> TopLayer(app) == ReaderLayer)
    ensures LayerOf(e) == NotesLayer ==> (Enabled(app, e) <==> TopLayer(app) == NotesLayer)
    ensures e.TogglePlay? || e.StopPlay? ==>
      (Enabled(app, e) <==> TopLayer(app) == ReaderLayer && ShowsAudio(app))
    ensures e.CardClicked? ==>
      (Enabled(app, e) <==> TopLayer(app) == MainLayer && app.view == Home && 0 <= e.index < |Cards|)
  {
    if app.notesOpen then
      e.TypeNotes? || e.CloseNotesPanel? || e.SaveNotesText?
    else if app.readerOpen then
      e.CloseReaderPanel? || ((e.TogglePlay? || e.StopPlay?) && ShowsAudio(app))
    else
      match e
      case NavigateTo(_) => true
      case CardClicked(i) => app.view == Home && 0 <= i < |Cards|
      case OpenNotesPanel => app.view == UserPage
      case SetName(_) => app.view == UserPage
      case SetFont(_) => app.view == UserPage
      case SetTheme(_) => app.view == UserPage
      case PickedFiles(_) => app.view == UserPage
      case _ => false
  }

  // ---------------------------------------------------------------------
  // What every reachable world satisfies

  /** A restart over the current storage shows what the page shows now, up
      to the falsy fallbacks and the cleaning of the picture; the notes agree
      once their panel is closed. */
  predicate ReloadAgrees(w: World) {
    var p := Load(w.store);
    && (p.name == w.app.name || (w.app.name == "" && p.name == DefaultName))
    && (p.font == w.app.fontSize || (w.app.fontSize == 0 && p.font == DefaultFont))
    && p.dark == w.app.isDark
    && p.pic == CleanPic(w.app.pic)
    && (!w.app.notesOpen ==> p.notes == w.app.notes)
  }

  /** What the screen guarantees whatever the storage holds: at most one
      panel is open, the anthem only plays under its visible reader, the play
      button agrees with the flag, and the bar highlights the shown view. */
  predicate ScreenInv(app: AppState) {
    && !(app.notesOpen && app.readerOpen)
    && (app.player.playing ==> app.readerOpen && ShowsAudio(app))
    && (app.readerOpen && ShowsAudio(app) ==> Consistent(app.player))
    && app.painted.nav == Highlight(app.view, app.isDark)
  }

  /** What readable storage guarantees: it stays readable, and a restart
      over it shows the settings the page shows now. */
  predicate StoreInv(w: World) {
    Loadable(w.store) && ReloadAgrees(w)
  }

  /** The page satisfies the screen invariant whatever the storage holds,
      and the storage invariant whenever the storage can be read. */
  lemma InitialInv(store: Store, audioPresent: bool)
    ensures ScreenInv(Initial(store, audioPresent).app)
    ensures Loadable(store) ==> StoreInv(Initial(store, audioPresent))
  {
    var p := Load(store);
    assert CleanPic(p.pic) == p.pic;
  }

  /** Every enabled event keeps both invariants. */
  lemma StepKeepsInv(w: World, e: Event)
    requires ScreenInv(w.app) && Enabled(w.app, e)
    ensures ScreenInv(Step(w, e).app)
    ensures StoreInv(w) ==> StoreInv(Step(w, e))
  {
    match e
    case NavigateTo(i) => NavigateKeepsInv(w, i);
    case CardClicked(i) => CardKeepsInv(w, i);
    case TogglePlay => AudioKeepsInv(w);
    case StopPlay => AudioKeepsInv(w);
    case CloseReaderPanel => CloseReaderKeepsInv(w);
    case OpenNotesPanel => NotesKeepInv(w, "");
    case TypeNotes(t) => NotesKeepInv(w, t);
    case CloseNotesPanel => NotesKeepInv(w, "");
    case SaveNotesText => NotesKeepInv(w, "");
    case SetName(n) => NameKeepsInv(w, n);
    case SetFont(f) => FontKeepsInv(w, f);
    case SetTheme(d) => ThemeKeepsInv(w, d);
    case PickedFiles(ps) => PickKeepsInv(w, ps);
  }

  lemma NavigateKeepsInv(w: World, i: int)
    requires ScreenInv(w.app) && !w.app.notesOpen && !w.app.readerOpen
    ensures ScreenInv(Navigate(w, i).app)
    ensures StoreInv(w) ==> StoreInv(Navigate(w, i))
  {
  }

  lemma CardKeepsInv(w: World, i: int)
    requires ScreenInv(w.app) && Enabled(w.app, CardClicked(i))
    ensures ScreenInv(ClickCard(w, i).app)
    ensures StoreInv(w) ==> StoreInv(ClickCard(w, i))
  {
    var t := Cards[i].title;
    if t != PhotoTitle {
      ReaderCardsHaveContent(i, w.app.fontSize);
      var r := OpenReader(w, t);
      assert r.app.player.playing == w.app.player.playing == false;
    }
  }

  lemma AudioKeepsInv(w: World)
    requires ScreenInv(w.app) && w.app.readerOpen && !w.app.notesOpen && ShowsAudio(w.app)
    ensures ScreenInv(ToggleAudio(w).app) && ScreenInv(StopAudio(w).app)
    ensures StoreInv(w) ==> StoreInv(ToggleAudio(w)) && StoreInv(StopAudio(w))
  {
  }

  lemma CloseReaderKeepsInv(w: World)
    requires ScreenInv(w.app) && !w.app.notesOpen
    ensures ScreenInv(CloseReader(w).app)
    ensures StoreInv(w) ==> StoreInv(CloseReader(w))
  {
  }

  lemma NotesKeepInv(w: World, text: string)
    requires ScreenInv(w.app) && !w.app.readerOpen
    ensures !w.app.notesOpen ==> ScreenInv(OpenNotes(w).app) && (StoreInv(w) ==> StoreInv(OpenNotes(w)))
    ensures w.app.notesOpen ==>
      && ScreenInv(EditNotes(w, text).app) && ScreenInv(CloseNotes(w).app) && ScreenInv(SaveNotes(w).app)
      && (StoreInv(w) ==> StoreInv(EditNotes(w, text)) && StoreInv(CloseNotes(w)) && StoreInv(SaveNotes(w)))
  {
  }

  lemma NameKeepsInv(w: World, name: string)
    requires ScreenInv(w.app)
    ensures ScreenInv(ChangeName(w, name).app)
    ensures StoreInv(w) ==> StoreInv(ChangeName(w, name))
  {
  }

  lemma FontKeepsInv(w: World, size: int)
    requires ScreenInv(w.app)
    ensures ScreenInv(ChangeFont(w, size).app)
    ensures StoreInv(w) ==> StoreInv(ChangeFont(w, size))
  {
  }

  lemma ThemeKeepsInv(w: World, dark: bool)
    requires ScreenInv(w.app)
    ensures ScreenInv(ChangeTheme(w, dark).app)
    ensures StoreInv(w) ==> StoreInv(ChangeTheme(w, dark))
  {
  }

  lemma PickKeepsInv(w: World, paths: seq<string>)
    requires ScreenInv(w.app)
    ensures ScreenInv(PickFile(w, paths).app)
    ensures StoreInv(w) ==> StoreInv(PickFile(w, paths))
  {
  }

  /** Runs a sequence of events. */
  function Run(w: World, events: seq<Event>): World
    decreases |events|
  {
    if events == [] then w else Run(Step(w, events[0]), events[1..])
  }

  /** Every event of the sequence is enabled when it arrives. */
  predicate Admissible(w: World, events: seq<Event>)
    decreases |events|
  {
    events == [] || (Enabled(w.app, events[0]) && Admissible(Step(w, events[0]), events[1..]))
  }

  lemma {:induction false} RunKeepsInv(w: World, events: seq<Event>)
    requires ScreenInv(w.app) && Admissible(w, events)
    ensures ScreenInv(Run(w, events).app)
    ensures StoreInv(w) ==> StoreInv(Run(w, events))
    decreases |events|
  {
    if events != [] {
      StepKeepsInv(w, events[0]);
      RunKeepsInv(Step(w, events[0]), events[1..]);
    }
  }

  /** In any session, whatever the storage holds, the anthem only plays while
      its reader is on screen, the play button tells the truth and the bar
      highlights the shown view; when the storage can be read at start-up, a
      restart also restores the shown settings. */
  lemma SessionGuarantees(store: Store, audioPresent: bool, events: seq<Event>)
    requires Admissible(Initial(store, audioPresent), events)
    ensures var w := Run(Initial(store, audioPresent), events);
      && (w.app.player.playing ==> w.app.readerOpen && !w.app.notesOpen && ShowsAudio(w.app))
      && (w.app.readerOpen && ShowsAudio(w.app) ==> Consistent(w.app.player))
      && (w.app.painted.nav.homeBackground == Theme.PrimaryColor <==> w.app.view == Home)
      && (w.app.painted.nav.userBackground == Theme.PrimaryColor <==> w.app.view == UserPage)
      && (Loadable(store) ==> ReloadAgrees(w))
  {
    InitialInv(store, audioPresent);
    RunKeepsInv(Initial(store, audioPresent), events);
  }

  // ---------------------------------------------------------------------
  // Scenarios

  /** A fresh installation opens on the home cards, light, greeting "Utente". */
  lemma FreshInstall(audioPresent: bool)
    ensures var w := Initial(map[], audioPresent);
      && w.app.view == Home && !w.app.isDark && w.app.name == DefaultName
      && w.app.fontSize == DefaultFont && w.app.pic == DefaultAvatar && w.app.notes == ""
      && w.app.painted.nav.homeBackground == Theme.PrimaryColor
  {
    EmptyStoreLoadsDefaults();
  }

  /** A name typed in one session greets the user after a restart. */
  lemma NameSurvivesRestart(w: World, name: string)
    requires Loadable(w.store) && name != ""
    ensures Initial(ChangeName(w, name).store, w.audioPresent).app.name == name
  {
  }

  /** A picked Windows path is shown for the rest of the session but replaced
      by the default avatar after a restart. */
  lemma ForeignPictureLastsOneSession(w: World, path: string)
    requires Loadable(w.store) && Settings.LooksForeign(path)
    ensures PickFile(w, [path]).app.pic == path
    ensures Initial(PickFile(w, [path]).store, w.audioPresent).app.pic == DefaultAvatar
  {
  }

  /** Picking a picture does not repaint the bar: its avatar stays the old one
      until the next navigation or theme change. */
  lemma PickedPictureNotInBarUntilRepaint(w: World, path: string, index: int)
    requires w.app.painted.avatar == w.app.pic && path != w.app.pic
    ensures PickFile(w, [path]).app.painted.avatar != path
    ensures Navigate(PickFile(w, [path]), index).app.painted.avatar == path
  {
  }

  /** A stored picture that is not a string makes every read fall back to the
      defaults, so a stored name stays hidden until a picture is picked. */
  lemma CorruptPictureHidesWrites(w: World, name: string)
    requires PicKey in w.store && Truthy(w.store[PicKey]) && !w.store[PicKey].Str?
    ensures Load(ChangeName(w, name).store) == Defaults
  {
  }

  /** Picking a picture repairs such storage: the string path replaces the
      corrupt value, and the name stored before is read back after a restart. */
  lemma PickRepairsCorruptPicture(w: World, name: string, path: string)
    requires PicKey in w.store && Truthy(w.store[PicKey]) && !w.store[PicKey].Str?
    requires LoadFont(w.store).Some?
    ensures !Loadable(w.store) && !Loadable(ChangeName(w, name).store)
    ensures var s := PickFile(ChangeName(w, name), [path]).store;
      && Loadable(s)
      && Load(s).name == (if name == "" then DefaultName else name)
      && Load(s).pic == CleanPic(path)
  {
    var named := w.store[NameKey := Str(name)];
    var s := named[PicKey := Str(path)];
    KeysDistinct();
    OtherKeyUnaffected(w.store, NameKey, Str(name));
    OtherKeyUnaffected(named, PicKey, Str(path));
    assert LoadPic(s) == Some(CleanPic(path));
    assert LoadFont(s) == LoadFont(w.store);
    assert LoadText(s, NameKey, DefaultName) == LoadText(named, NameKey, DefaultName);
  }

  /** Opening another title does not stop the anthem; only the panel
      covering the cards keeps this from happening on screen. */
  lemma SectionChangeKeepsAudio(w: World, title: string)
    requires w.app.player.playing && title != AnthemTitle
    ensures OpenReader(w, title).app.player.playing
    ensures !ShowsAudio(OpenReader(w, title).app)
    ensures OpenReader(w, title).calls == w.calls
  {
  }

  /** Closing the reader twice is the same as closing it once. */
  lemma CloseReaderIdempotent(w: World)
    ensures CloseReader(CloseReader(w)) == CloseReader(w)
  {
  }

  /** The anthem round trip: play, pause, resume, stop; one call per toggle
      and a pause with a rewind for the stop. */
  lemma AnthemRoundTrip(w: World)
    requires !w.app.player.playing
    ensures var w1 := ToggleAudio(w);
            var w2 := ToggleAudio(w1);
            var w3 := ToggleAudio(w2);
            var w4 := StopAudio(w3);
            && w1.app.player.playing && !w2.app.player.playing && w3.app.player.playing
            && !w4.app.player.playing && w4.app.player.button.text == PlayLabel
            && w4.calls == w.calls + IfPresent(w.audioPresent, [Play, Pause, Play, Pause, Seek(0)])
  {
  }
}

=== FILE: audio.dfy ===
/** The anthem player of the reader: the `audio_playing` flag, the play
    button it drives, and the calls each handler makes on the audio element.
    When the audio element could not be created (`present` false) the
    handlers still change the flag and the button but make no call. */
module Audio {
  import Theme

  /** A call on the audio element. */
  datatype AudioCall = Play | Pause | Seek(position: int)

  const PlayLabel := "RIPRODUCI"
  const PauseLabel := "PAUSA"
  const ResumeLabel := "RIPRENDI"
  const PlayIcon := "play-circle.svg"
  const PauseIcon := "pause-circle.svg"
  const PlayingColor := "#d9534f"

  datatype PlayButton = PlayButton(icon: string, text: string, background: string)

  datatype Player = Player(playing: bool, button: PlayButton)

  /** The result of one handler: the new player and the calls it made, in order. */
  datatype AudioStep = AudioStep(player: Player, calls: seq<AudioCall>)

  /** The button as `open_reader` creates it for the anthem. */
  function FreshButton(isDark: bool): (b: PlayButton)
    ensures b.text == PlayLabel && b.icon == PlayIcon
  {
    PlayButton(PlayIcon, PlayLabel, Theme.ColorOf(isDark, Theme.Primary))
  }

  /** The calls made on the element if it exists. */
  function IfPresent(present: bool, calls: seq<AudioCall>): seq<AudioCall> {
    if present then calls else []
  }

  /** The button agrees with the flag: pause icon and "PAUSA" on the red
      background while playing, play icon and "RIPRODUCI" or "RIPRENDI" on the
      accent colour otherwise. */
  predicate Consistent(p: Player) {
    if p.playing then
      p.button == PlayButton(PauseIcon, PauseLabel, PlayingColor)
    else
      && p.button.icon == PlayIcon
      && (p.button.text == PlayLabel || p.button.text == ResumeLabel)
      && p.button.background == Theme.PrimaryColor
  }

  /** `toggle_audio`: pause a playing anthem or (re)start a silent one. */
  function Toggle(p: Player, present: bool, isDark: bool): (r: AudioStep)
    ensures r.player.playing == !p.playing
    ensures Consistent(r.player)
    ensures p.playing ==> r.calls == IfPresent(present, [Pause]) && r.player.button.text == ResumeLabel
    ensures !p.playing ==> r.calls == IfPresent(present, [Play]) && r.player.button.text == PauseLabel
    ensures Seek(0) !in r.calls
  {
    Theme.PrimaryIgnoresMode(isDark);
    if p.playing then
      AudioStep(Player(false, PlayButton(PlayIcon, ResumeLabel, Theme.ColorOf(isDark, Theme.Primary))),
                IfPresent(present, [Pause]))
    else
      AudioStep(Player(true, PlayButton(PauseIcon, PauseLabel, PlayingColor)),
                IfPresent(present, [Play]))
  }

  /** `stop_audio`: pause, rewind to the start, and reset the button. */
  function Stop(p: Player, present: bool, isDark: bool): (r: AudioStep)
    ensures !r.player.playing && r.player.button.text == PlayLabel
    ensures Consistent(r.player)
    ensures r.calls == IfPresent(present, [Pause, Seek(0)])
  {
    Theme.PrimaryIgnoresMode(isDark);
    AudioStep(Player(false, FreshButton(isDark)), IfPresent(present, [Pause, Seek(0)]))
  }

  /** The audio part of `close_reader`: pause only if playing; the button is
      left as it was. */
  function Silence(p: Player, present: bool): (r: AudioStep)
    ensures !r.player.playing
    ensures r.player.button == p.button
    ensures r.calls == (if p.playing then IfPresent(present, [Pause]) else [])
    ensures Seek(0) !in r.calls && Play !in r.calls
  {
    if p.playing then AudioStep(Player(false, p.button), IfPresent(present, [Pause]))
    else AudioStep(p, [])
  }

  /** Two toggles bring the flag back, after one pause and one play in
      either order; from silence the button then reads "RIPRENDI". */
  lemma ToggleTwice(p: Player, present: bool, isDark: bool)
    ensures var s1 := Toggle(p, present, isDark);
            var s2 := Toggle(s1.player, present, isDark);
            && s2.player.playing == p.playing
            && s1.calls + s2.calls ==
                 IfPresent(present, if p.playing then [Pause, Play] else [Play, Pause])
            && (!p.playing ==> s2.player.button.text == ResumeLabel)
  {
  }

  /** Stopping twice leaves the player as stopping once, at the cost of a
      second pause and rewind. */
  lemma StopIdempotent(p: Player, present: bool, isDark: bool)
    ensures var s1 := Stop(p, present, isDark);
            var s2 := Stop(s1.player, present, isDark);
            s2.player == s1.player && s2.calls == s1.calls
  {
  }

  /** Closing the reader over a playing anthem leaves the hidden button
      reading "PAUSA" while the flag is off; the agreement only holds again
      once `open_reader` builds a new button. */
  lemma SilenceLeavesButton(p: Player, present: bool)
    requires Consistent(p) && p.playing
    ensures !Consistent(Silence(p, present).player)
    ensures Consistent(Player(Silence(p, present).player.playing, FreshButton(false)))
  {
  }
}

=== FILE: catalog.dfy ===
/** The fixed content of the application: the books with their page images,
    the home-screen cards and where each card leads, and what the reader
    panel shows for a title. */
module Catalog {
  import opened Wrappers

  /** `BOOKS_DATA`: page images per title, in reading order. */
  const BooksData: map<string, seq<string>> := map[
    "Lodi Mattutine" := ["lodi1.jpg", "lodi2.jpg", "lodi3.jpg", "lodi4.jpg", "lodi5.jpg"],
    "Libretto" := ["lib1.jpg", "lib2.jpg", "lib3.jpg", "lib4.jpg", "lib5.jpg"],
    "Foto ricordo" := []]

  const AnthemTitle := "Inno"
  const PhotoTitle := "Foto ricordo"
  const PhotoUrl := "https://biografieonline.it/img/bio/gallery/r/Robert_Oppenheimer_1.jpg"
  const NoPagesMessage := "Nessuna pagina qui."

  /** One entry of the reader's column. The lyrics are an opaque text; only
      the size they are drawn at is kept. */
  datatype Block =
    | Spacer(height: nat)
    | AudioControls
    | Lyrics(textSize: int)
    | Placeholder(message: string)
    | Page(src: string)

  /** The column for a book: each page image followed by a 10-pixel spacer. */
  function PageBlocks(pages: seq<string>): (r: seq<Block>)
    ensures |r| == 2 * |pages|
    ensures forall b :: b in r ==> b.Page? || b == Spacer(10)
  {
    if pages == [] then [] else [Page(pages[0]), Spacer(10)] + PageBlocks(pages[1..])
  }

  /** Position by position: page `i` sits at `2 * i` with its spacer after it. */
  lemma {:induction false} PageBlocksLayout(pages: seq<string>, i: int)
    requires 0 <= i < |pages|
    ensures PageBlocks(pages)[2 * i] == Page(pages[i])
    ensures PageBlocks(pages)[2 * i + 1] == Spacer(10)
  {
    if i > 0 {
      PageBlocksLayout(pages[1..], i - 1);
    }
  }

  /** Every page of a column sits at an even position, its spacer right after. */
  lemma PageBlocksPairs(pages: seq<string>)
    ensures forall i :: 0 <= i < |pages| ==>
      PageBlocks(pages)[2 * i] == Page(pages[i]) && PageBlocks(pages)[2 * i + 1] == Spacer(10)
  {
    forall i | 0 <= i < |pages|
      ensures PageBlocks(pages)[2 * i] == Page(pages[i]) && PageBlocks(pages)[2 * i + 1] == Spacer(10)
    {
      PageBlocksLayout(pages, i);
    }
  }

  /** The images a column shows, top to bottom. */
  function PagesShown(blocks: seq<Block>): seq<string> {
    if blocks == [] then []
    else if blocks[0].Page? then [blocks[0].src] + PagesShown(blocks[1..])
    else PagesShown(blocks[1..])
  }

  lemma {:induction false} PagesShownAppend(a: seq<Block>, b: seq<Block>)
    ensures PagesShown(a + b) == PagesShown(a) + PagesShown(b)
  {
    if a != [] {
      assert (a + b)[0] == a[0];
      assert (a + b)[1..] == a[1..] + b;
      PagesShownAppend(a[1..], b);
      if a[0].Page? {
        assert PagesShown(a + b) == [a[0].src] + (PagesShown(a[1..]) + PagesShown(b));
      }
    } else {
      assert a + b == b;
    }
  }

  /** A book's column shows exactly its pages, in order. */
  lemma {:induction false} PageBlocksShowPages(pages: seq<string>)
    ensures PagesShown(PageBlocks(pages)) == pages
  {
    if pages != [] {
      var rest := PageBlocks(pages[1..]);
      PagesShownAppend([Page(pages[0]), Spacer(10)], rest);
      PageBlocksShowPages(pages[1..]);
      assert PagesShown([Page(pages[0]), Spacer(10)]) == [pages[0]];
    }
  }

  /** The column for the anthem: the play and stop buttons, then the lyrics
      at the current text size. */
  function AnthemBlocks(fontSize: int): seq<Block> {
    [Spacer(20), AudioControls, Spacer(10), Lyrics(fontSize), Spacer(50)]
  }

  /** The reader column `open_reader` builds for `title`; `None` is the
      `KeyError` of a title that is neither the anthem nor a book. */
  function ReaderBlocks(title: string, fontSize: int): (r: Option<seq<Block>>)
    ensures r.None? <==> title != AnthemTitle && title !in BooksData
    ensures r.Some? ==> (AudioControls in r.value <==> title == AnthemTitle)
    ensures title == AnthemTitle ==> Lyrics(fontSize) in r.value
    ensures title != AnthemTitle && title in BooksData && BooksData[title] == [] ==>
      r == Some([Placeholder(NoPagesMessage)])
    ensures title != AnthemTitle && title in BooksData ==>
      PagesShown(r.value) == BooksData[title]
    ensures title != AnthemTitle && title in BooksData && BooksData[title] != [] ==>
      && |r.value| == 2 * |BooksData[title]|
      && forall i :: 0 <= i < |BooksData[title]| ==>
           r.value[2 * i] == Page(BooksData[title][i]) && r.value[2 * i + 1] == Spacer(10)
  {
    if title == AnthemTitle then
      Some(AnthemBlocks(fontSize))
    else if title !in BooksData then
      None
    else if BooksData[title] == [] then
      Some([Placeholder(NoPagesMessage)])
    else
      PageBlocksShowPages(BooksData[title]);
      PageBlocksPairs(BooksData[title]);
      Some(PageBlocks(BooksData[title]))
  }

  /** What clicking a card does. */
  datatype Action = LaunchUrl(url: string) | OpenReader(title: string)

  datatype Card = Card(title: string, icon: string)

  /** The home-screen cards, top to bottom. */
  const Cards: seq<Card> := [
    Card("Lodi Mattutine", "sunrise"), Card("Libretto", "book-open"),
    Card(AnthemTitle, "music"), Card(PhotoTitle, "camera")]

  /** The click handler a card is given. */
  function CardAction(title: string): (r: Action)
    ensures r.LaunchUrl? <==> title == PhotoTitle
    ensures r.LaunchUrl? ==> r.url == PhotoUrl
    ensures r.OpenReader? ==> r.title == title
  {
    if title == PhotoTitle then LaunchUrl(PhotoUrl) else OpenReader(title)
  }

  /** The photo card is the only one that leaves the application. */
  lemma OnlyPhotoCardLaunches(i: int)
    requires 0 <= i < |Cards|
    ensures CardAction(Cards[i].title).LaunchUrl? <==> i == 3
  {
  }

  /** Every card that opens the reader names the anthem or a book with pages,
      so the "no pages" placeholder is never reached from the home screen. */
  lemma ReaderCardsHaveContent(i: int, fontSize: int)
    requires 0 <= i < |Cards| && CardAction(Cards[i].title).OpenReader?
    ensures ReaderBlocks(Cards[i].title, fontSize).Some?
    ensures ReaderBlocks(Cards[i].title, fontSize) != Some([Placeholder(NoPagesMessage)])
  {
    var t := Cards[i].title;
    if t != AnthemTitle {
      assert BooksData[t] != [];
      PageBlocksShowPages(BooksData[t]);
    }
  }
}

=== FILE: settings.dfy ===
/** The persisted settings: `page.client_storage` as a key/value map, and
    `get_stored_data`, which reads it back with falsy fallbacks, cleans the
    profile-picture path, and returns all defaults if any step raises. */
module Settings {
  import opened Wrappers
  import opened Text

  /** A value the client storage may hold for a key. */
  datatype Stored = Str(s: string) | Num(n: int) | Flag(b: bool)

  type Store = map<string, Stored>

  const NameKey := "user_name"
  const NotesKey := "user_notes"
  const FontKey := "font_size"
  const DarkKey := "dark_mode"
  const PicKey := "profile_pic"

  const DefaultName := "Utente"
  const DefaultNotes := ""
  const DefaultFont := 16
  const DefaultAvatar := "user.svg"

  /** Python truthiness of a stored value. */
  predicate Truthy(v: Stored) {
    match v
    case Str(s) => s != ""
    case Num(n) => n != 0
    case Flag(b) => b
  }

  /** `client_storage.get(key) or fallback`. */
  function GetOr(store: Store, key: string, fallback: Stored): Stored {
    if key in store && Truthy(store[key]) then store[key] else fallback
  }

  /** A path in another platform's convention: a drive letter, a backslash or
      a leading slash. */
  predicate LooksForeign(p: string) {
    Contains(p, "C:") || Contains(p, "\\") || StartsWith(p, "/")
  }

  /** The default avatar is not a foreign path. */
  lemma DefaultAvatarIsLocal()
    ensures !LooksForeign(DefaultAvatar)
  {
    MissingFirstChar(DefaultAvatar, "C:");
    MissingFirstChar(DefaultAvatar, "\\");
  }

  /** The path cleaning applied to a stored profile picture. */
  function Sanitize(p: string): (r: string)
    ensures !LooksForeign(r)
    ensures r == p || r == DefaultAvatar
    ensures r == p <==> !LooksForeign(p)
  {
    DefaultAvatarIsLocal();
    if LooksForeign(p) then DefaultAvatar else p
  }

  /** What `get_stored_data` returns. */
  datatype Profile = Profile(name: string, notes: string, font: int, dark: bool, pic: string)

  const Defaults := Profile(DefaultName, DefaultNotes, DefaultFont, false, DefaultAvatar)

  /** The profile picture: `None` when the stored value is not a string and
      the substring test raises `TypeError`. */
  function LoadPic(store: Store): Option<string> {
    match GetOr(store, PicKey, Str(DefaultAvatar))
    case Str(p) => Some(Sanitize(p))
    case _ => None
  }

  /** `float(...)` of the stored font size or 16; `None` when the conversion raises. */
  function LoadFont(store: Store): Option<int> {
    match GetOr(store, FontKey, Num(DefaultFont))
    case Num(n) => Some(n)
    case Flag(b) => Some(if b then 1 else 0)
    case Str(s) =>
      match ParseDecimal(s)
      case Some(v) => Some(v)
      case None => None
  }

  /** A text setting, or `fallback` when it is absent or empty. */
  function LoadText(store: Store, key: string, fallback: string): string {
    match GetOr(store, key, Str(fallback))
    case Str(t) => t
    case _ => fallback
  }

  /** The `try` branch of `get_stored_data`; `None` when it raises. */
  function TryLoad(store: Store): Option<Profile> {
    match LoadPic(store)
    case None => None
    case Some(pic) =>
      match LoadFont(store)
      case None => None
      case Some(font) =>
        Some(Profile(
          LoadText(store, NameKey, DefaultName),
          LoadText(store, NotesKey, DefaultNotes),
          font,
          DarkKey in store && Truthy(store[DarkKey]),
          pic))
  }

  predicate Loadable(store: Store) {
    TryLoad(store).Some?
  }

  /** `get_stored_data`: the stored profile, or the defaults if reading raised. */
  function Load(store: Store): (r: Profile)
    ensures !Loadable(store) ==> r == Defaults
    ensures r.name != "" && r.pic != "" && !LooksForeign(r.pic)
  {
    DefaultAvatarIsLocal();
    TryLoad(store).GetOr(Defaults)
  }

  /** Reading raises exactly when the picture is a truthy non-string or the
      font size is a truthy string that is not a number. */
  lemma LoadFailsExactly(store: Store)
    ensures !Loadable(store) <==>
      || (PicKey in store && Truthy(store[PicKey]) && !store[PicKey].Str?)
      || (FontKey in store && Truthy(store[FontKey]) && store[FontKey].Str?
          && ParseDecimal(store[FontKey].s).None?)
  {
  }

  /** The three cases of profile-picture cleaning. */
  lemma PicCases(store: Store)
    requires Loadable(store)
    ensures PicKey !in store || store[PicKey] == Str("") ==> Load(store).pic == DefaultAvatar
    ensures PicKey in store && store[PicKey].Str? && store[PicKey].s != "" ==>
      (Load(store).pic == store[PicKey].s <==> !LooksForeign(store[PicKey].s))
    ensures PicKey in store && store[PicKey].Str? && LooksForeign(store[PicKey].s) ==>
      Load(store).pic == DefaultAvatar
  {
    DefaultAvatarIsLocal();
  }

  /** Absent or falsy keys fall back to the defaults, field by field. */
  lemma FalsyFallbacks(store: Store)
    requires Loadable(store)
    ensures !(NameKey in store && Truthy(store[NameKey])) ==> Load(store).name == DefaultName
    ensures !(NotesKey in store && Truthy(store[NotesKey])) ==> Load(store).notes == DefaultNotes
    ensures !(FontKey in store && Truthy(store[FontKey])) ==> Load(store).font == DefaultFont
    ensures !(DarkKey in store && Truthy(store[DarkKey])) ==> !Load(store).dark
  {
  }

  /** A fresh installation reads exactly the defaults. */
  lemma EmptyStoreLoadsDefaults()
    ensures Loadable(map[])
    ensures Load(map[]) == Defaults
  {
    DefaultAvatarIsLocal();
  }

  lemma KeysDistinct()
    ensures NameKey != NotesKey && NameKey != FontKey && NameKey != DarkKey && NameKey != PicKey
    ensures NotesKey != FontKey && NotesKey != DarkKey && NotesKey != PicKey
    ensures FontKey != DarkKey && FontKey != PicKey && DarkKey != PicKey
  {
    assert NameKey[0] == 'u' && NotesKey[0] == 'u' && FontKey[0] == 'f';
    assert DarkKey[0] == 'd' && PicKey[0] == 'p';
    assert |NameKey| == 9 && |NotesKey| == 10;
  }

  /** A write under one key leaves every reading of another key as it was. */
  lemma {:induction false} OtherKeyUnaffected(store: Store, k: string, v: Stored)
    ensures k != PicKey ==> LoadPic(store[k := v]) == LoadPic(store)
    ensures k != FontKey ==> LoadFont(store[k := v]) == LoadFont(store)
    ensures k != NameKey ==> LoadText(store[k := v], NameKey, DefaultName) == LoadText(store, NameKey, DefaultName)
    ensures k != NotesKey ==> LoadText(store[k := v], NotesKey, DefaultNotes) == LoadText(store, NotesKey, DefaultNotes)
    ensures k != DarkKey ==>
      (DarkKey in store[k := v] && Truthy(store[k := v][DarkKey])) == (DarkKey in store && Truthy(store[DarkKey]))
  {
    var after := store[k := v];
    if k != PicKey {
      assert GetOr(after, PicKey, Str(DefaultAvatar)) == GetOr(store, PicKey, Str(DefaultAvatar));
    }
    if k != FontKey {
      assert GetOr(after, FontKey, Num(DefaultFont)) == GetOr(store, FontKey, Num(DefaultFont));
    }
  }

  /** Storing a name: a restart greets with it, or with the default when it is empty. */
  lemma StoreName(store: Store, name: string)
    ensures Loadable(store) ==>
      && Loadable(store[NameKey := Str(name)])
      && Load(store[NameKey := Str(name)]) == Load(store).(name := if name == "" then DefaultName else name)
  {
    if Loadable(store) {
      KeysDistinct();
      OtherKeyUnaffected(store, NameKey, Str(name));
    }
  }

  /** Storing the notes: a restart shows exactly them. */
  lemma StoreNotes(store: Store, notes: string)
    ensures Loadable(store) ==>
      && Loadable(store[NotesKey := Str(notes)])
      && Load(store[NotesKey := Str(notes)]) == Load(store).(notes := notes)
  {
    if Loadable(store) {
      KeysDistinct();
      OtherKeyUnaffected(store, NotesKey, Str(notes));
    }
  }

  /** Storing a font size: a restart uses it, or 16 when it is zero. */
  lemma StoreFont(store: Store, size: int)
    ensures Loadable(store) ==>
      && Loadable(store[FontKey := Num(size)])
      && Load(store[FontKey := Num(size)]) == Load(store).(font := if size == 0 then DefaultFont else size)
  {
    if Loadable(store) {
      var after := store[FontKey := Num(size)];
      KeysDistinct();
      OtherKeyUnaffected(store, FontKey, Num(size));
      assert LoadFont(after) == Some(if size == 0 then DefaultFont else size);
      assert TryLoad(after) == Some(TryLoad(store).value.(font := if size == 0 then DefaultFont else size));
    }
  }

  /** Storing the theme flag: a restart uses it. */
  lemma StoreDark(store: Store, dark: bool)
    ensures Loadable(store) ==>
      && Loadable(store[DarkKey := Flag(dark)])
      && Load(store[DarkKey := Flag(dark)]) == Load(store).(dark := dark)
  {
    if Loadable(store) {
      var after := store[DarkKey := Flag(dark)];
      KeysDistinct();
      OtherKeyUnaffected(store, DarkKey, Flag(dark));
      assert TryLoad(after) == Some(TryLoad(store).value.(dark := dark));
    }
  }

  /** Storing a picture path: a restart shows it cleaned, or the default
      avatar when it is empty. */
  lemma StorePic(store: Store, path: string)
    ensures Loadable(store) ==>
      && Loadable(store[PicKey := Str(path)])
      && Load(store[PicKey := Str(path)]) ==
           Load(store).(pic := Sanitize(if path == "" then DefaultAvatar else path))
  {
    if Loadable(store) {
      var after := store[PicKey := Str(path)];
      KeysDistinct();
      OtherKeyUnaffected(store, PicKey, Str(path));
      assert LoadPic(after) == Some(Sanitize(if path == "" then DefaultAvatar else path));
      assert TryLoad(after) ==
        Some(TryLoad(store).value.(pic := Sanitize(if path == "" then DefaultAvatar else path)));
    }
  }

  /** The kind of value the application writes under each key: the font size
      as a number, the theme as a flag, every other setting as a string. */
  predicate WellTyped(key: string, v: Stored) {
    if key == FontKey then v.Num? else if key == DarkKey then v.Flag? else v.Str?
  }

  /** Writing any value of the kind the application writes never makes
      readable storage unreadable. */
  lemma WriteKeepsLoadable(store: Store, key: string, v: Stored)
    requires Loadable(store) && WellTyped(key, v)
    ensures Loadable(store[key := v])
  {
    var after := store[key := v];
    KeysDistinct();
    OtherKeyUnaffected(store, key, v);
    assert LoadPic(after).Some? by {
      if key == PicKey {
        assert GetOr(after, PicKey, Str(DefaultAvatar)).Str?;
      }
    }
    assert LoadFont(after).Some? by {
      if key == FontKey {
        assert GetOr(after, FontKey, Num(DefaultFont)).Num?;
      }
    }
  }
}

=== FILE: text.dfy ===
/** The string tests the application performs on stored values: Python's
    `sub in s`, `s.startswith(p)`, and `float(s)` restricted to plain digits. */
module Text {
  import opened Wrappers

  predicate StartsWith(s: string, prefix: string) {
    |prefix| <= |s| && s[..|prefix|] == prefix
  }

  /** Reference meaning of `sub in s`: `sub` starts at some position of `s`. */
  ghost predicate Occurs(s: string, sub: string) {
    exists i :: 0 <= i <= |s| && StartsWith(s[i..], sub)
  }

  /** `sub in s`, scanning `s` from the left. */
  function Contains(s: string, sub: string): (r: bool)
    ensures r <==> Occurs(s, sub)
    decreases |s|
  {
    if StartsWith(s, sub) then
      assert s[0..] == s;
      true
    else if |s| == 0 then
      false
    else
      var r := Contains(s[1..], sub);
      OccursShift(s, sub);
      r
  }

  /** Away from position 0, the occurrences of `sub` in `s` are those in `s[1..]`. */
  lemma OccursShift(s: string, sub: string)
    requires |s| > 0 && !StartsWith(s, sub)
    ensures Occurs(s, sub) <==> Occurs(s[1..], sub)
  {
    if Occurs(s, sub) {
      var i :| 0 <= i <= |s| && StartsWith(s[i..], sub);
      assert i != 0;
      assert s[1..][i - 1..] == s[i..];
    }
    if Occurs(s[1..], sub) {
      var j :| 0 <= j <= |s[1..]| && StartsWith(s[1..][j..], sub);
      assert s[1..][j..] == s[j + 1..];
    }
  }

  /** A string that lacks the first character of `sub` cannot contain `sub`. */
  lemma MissingFirstChar(s: string, sub: string)
    requires |sub| > 0 && forall i :: 0 <= i < |s| ==> s[i] != sub[0]
    ensures !Contains(s, sub)
  {
  }

  predicate IsDigit(c: char) {
    '0' <= c <= '9'
  }

  predicate AllDigits(s: string) {
    forall i :: 0 <= i < |s| ==> IsDigit(s[i])
  }

  function DigitValue(c: char): nat
    requires IsDigit(c)
  {
    (c as int - '0' as int) as nat
  }

  /** The value of a digit string read left to right, most significant
      digit first, starting from `acc`. */
  function Horner(acc: nat, s: string): nat
    requires AllDigits(s)
    decreases |s|
  {
    if s == [] then acc else Horner(10 * acc + DigitValue(s[0]), s[1..])
  }

  /** The decimal value of a digit string. */
  function DecimalValue(s: string): nat
    requires AllDigits(s)
  {
    Horner(0, s)
  }

  /** Appending a digit on the right shifts the value one place. */
  lemma {:induction false} HornerSnoc(acc: nat, p: string, c: char)
    requires AllDigits(p) && IsDigit(c)
    ensures AllDigits(p + [c])
    ensures Horner(acc, p + [c]) == 10 * Horner(acc, p) + DigitValue(c)
    decreases |p|
  {
    assert AllDigits(p + [c]) by {
      forall i | 0 <= i < |p + [c]| ensures IsDigit((p + [c])[i]) {
        if i < |p| { assert (p + [c])[i] == p[i]; }
      }
    }
    if p != [] {
      assert (p + [c])[1..] == p[1..] + [c];
      HornerSnoc(10 * acc + DigitValue(p[0]), p[1..], c);
    }
  }

  /** `float(s)` for a string of decimal digits; anything else is the
      `ValueError` branch, reported as `None`. */
  function ParseDecimal(s: string): (r: Option<nat>)
    ensures r.Some? <==> |s| > 0 && AllDigits(s)
    ensures r.Some? ==> r.value == DecimalValue(s)
    ensures |s| == 1 && IsDigit(s[0]) ==> r == Some(DigitValue(s[0]))
    decreases |s|
  {
    if |s| == 0 || !IsDigit(s[|s| - 1]) then
      None
    else if |s| == 1 then
      assert s[1..] == [] && DecimalValue(s) == Horner(DigitValue(s[0]), []);
      Some(DigitValue(s[0]))
    else
      match ParseDecimal(s[..|s| - 1])
      case None => None
      case Some(v) =>
        HornerSnoc(0, s[..|s| - 1], s[|s| - 1]);
        assert s == s[..|s| - 1] + [s[|s| - 1]];
        Some(10 * v + DigitValue(s[|s| - 1]))
  }

  /** A stored font size written as text, such as "18", reads as its number. */
  lemma ParseTwoDigits()
    ensures ParseDecimal("18") == Some(18)
  {
    assert "18"[..1] == "1";
  }
}

=== FILE: theme.dfy ===
/** The colour table of the application and its lookup `get_c`. Colours are
    opaque strings; only their equality matters to the rest of the model. */
module Theme {
  import opened Wrappers

  type Palette = map<string, string>

  const LightPalette: Palette := map[
    "bg" := "#f3f0e9", "primary" := "#6a8a73", "text" := "#1a1a1a", "text_sub" := "#888888",
    "card" := "white", "icon_bg" := "#dbe4de", "nav_bg" := "white", "input_bg" := "white",
    "paper_bg" := "#fcfbf9", "paper_line" := "#e0e6e3"]

  const DarkPalette: Palette := map[
    "bg" := "#1e1e1e", "primary" := "#6a8a73", "text" := "#ffffff", "text_sub" := "#aaaaaa",
    "card" := "#2c2c2c", "icon_bg" := "#3a3a3a", "nav_bg" := "#2c2c2c", "input_bg" := "#333333",
    "paper_bg" := "#252525", "paper_line" := "#3a3a3a"]

  /** `COLORS`, keyed by mode name. */
  const Colors: map<string, Palette> := map["light" := LightPalette, "dark" := DarkPalette]

  /** The ten colour keys the interface asks for. */
  const TokenKeys: set<string> := {
    "bg", "primary", "text", "text_sub", "card", "icon_bg", "nav_bg", "input_bg",
    "paper_bg", "paper_line"}

  const PrimaryColor := "#6a8a73"

  function ModeName(isDark: bool): string {
    if isDark then "dark" else "light"
  }

  /** `get_c(key)`: the colour of `key` in the palette the theme flag selects;
      `None` stands for the `KeyError` of an unknown key. */
  function GetC(isDark: bool, key: string): (r: Option<string>)
    ensures r.Some? <==> key in TokenKeys
    ensures key == "primary" ==> r == Some(PrimaryColor)
  {
    var palette := Colors[ModeName(isDark)];
    if key in palette then Some(palette[key]) else None
  }

  /** The keys of the table as a closed type, so that lookups cannot miss. */
  datatype Token =
    | Background | Primary | Foreground | Subdued | CardSurface | IconSurface
    | NavSurface | InputSurface | PaperSurface | PaperLine

  function Key(t: Token): string {
    match t
    case Background => "bg"
    case Primary => "primary"
    case Foreground => "text"
    case Subdued => "text_sub"
    case CardSurface => "card"
    case IconSurface => "icon_bg"
    case NavSurface => "nav_bg"
    case InputSurface => "input_bg"
    case PaperSurface => "paper_bg"
    case PaperLine => "paper_line"
  }

  /** Every key the table defines is the key of exactly one token. */
  lemma TokensCoverKeys(k: string)
    ensures k in TokenKeys <==> exists t :: Key(t) == k
    ensures forall t1, t2 :: Key(t1) == Key(t2) ==> t1 == t2
  {
    KeyInjective();
    if k in TokenKeys {
      var t :=
        if k == "bg" then Background else if k == "primary" then Primary
        else if k == "text" then Foreground else if k == "text_sub" then Subdued
        else if k == "card" then CardSurface else if k == "icon_bg" then IconSurface
        else if k == "nav_bg" then NavSurface else if k == "input_bg" then InputSurface
        else if k == "paper_bg" then PaperSurface else PaperLine;
      assert Key(t) == k;
    }
  }

  /** Distinct tokens have distinct keys. */
  lemma KeyInjective()
    ensures forall t1, t2 :: Key(t1) == Key(t2) ==> t1 == t2
  {
    forall t1, t2 | Key(t1) == Key(t2) ensures t1 == t2 {
      assert |Key(t1)| == |Key(t2)| && Key(t1)[0] == Key(t2)[0];
      assert Key(t1)[|Key(t1)| - 1] == Key(t2)[|Key(t2)| - 1];
    }
  }

  /** `get_c` on a token: total, whatever the mode. */
  function ColorOf(isDark: bool, t: Token): (r: string)
    ensures GetC(isDark, Key(t)) == Some(r)
  {
    GetC(isDark, Key(t)).value
  }

  /** Both palettes define the same ten keys. */
  lemma PalettesAgreeOnKeys()
    ensures Colors["light"].Keys == Colors["dark"].Keys == TokenKeys
  {
  }

  /** The accent colour does not depend on the mode. */
  lemma PrimaryIgnoresMode(isDark: bool)
    ensures ColorOf(isDark, Primary) == ColorOf(!isDark, Primary) == PrimaryColor
  {
  }

  /** The navigation bar surface differs from the accent in both modes, so a
      highlighted nav button can be told apart from a plain one. */
  lemma NavSurfaceIsNotPrimary(isDark: bool)
    ensures ColorOf(isDark, NavSurface) != ColorOf(isDark, Primary)
  {
  }
}

=== FILE: wrappers.dfy ===
/** A value that may be missing: an absent storage key, a lookup that raises. */
module Wrappers {

  datatype Option<+T> = None | Some(value: T) {

    /** The wrapped value, or `default` when there is none. */
    function GetOr(default: T): T {
      match this
      case Some(v) => v
      case None => default
    }
  }
}
